=== FILE: README.md ===
# Loadout randomizer: random-selection core

A Dafny model of the selection logic of a League of Legends "loadout
randomizer" web app. The app draws a champion, two summoner spells, a rune
page and an item build. The model covers three parts:

- **Item view** (`items.dfy`, module `ItemDisplay`). It builds the Summoner's
  Rift, starter, boots and main-item pools from the mapped item catalog. It
  derives the "limited" group ids from the catalog's group list. It runs the
  6-slot main-item sampler: rejection sampling without replacement, bounded by
  1000 attempts. It models `randomizeItems` in instant and rolling mode.
- **Application view** (`app.dfy`, module `App`). It draws a spell pair with
  distinct ids and a rune page from two distinct trees. It models the
  `randomize` cycle: the readiness guard, the rolling flag, the interval ticks
  and the final timeout.
- **Lane selector** (`lane.dfy`, module `LaneSelector`). This is the toggle
  state machine over `null | "lane" | "jungle" | "support"`, plus the
  active-button rule.

Randomness is injected (`oracle.dfy`, module `Oracle`). A draw `d` from a pool
of length `n` picks index `d % n`. A `Stream` (`nat -> nat`) supplies the
successive draws of a retry loop or of a per-slot map. Each sampler takes a
record of the draws it consumes. `Base` (`base.dfy`) holds `Option` (for
`null`/`undefined`), an order-preserving `Filter` and `RemoveAt` (`splice(i, 1)`).

Modelling decisions:
- Catalog records are already parsed. An item keeps only the fields the
  selection reads: id, `gold.total`, tags, map flags, group and `inStore`.
  `MaxGroupOwnable` is kept as the JavaScript number `Number(...)` yields:
  NaN, a finite value, or an infinity.
- The two retry loops (`while (second.id === first.id)`) terminate only if the
  random source eventually yields a different id. That is a precondition of
  `Oracle.DrawDistinct`, stated as "some position of the stream differs".
  `Oracle.RetryNeedsTwoKeys` shows this forces the pool to hold two different
  ids. `Oracle.TwoKeysAdmitRetry` shows that any such pool admits a terminating
  draw.
- `randomRunes` reads `primary.slots[0].runes`. A primary tree with no slots
  makes this throw a `TypeError`, which the model returns as
  `RuneRoll.TypeError`. Inside an interval tick, the throw stops the callback
  after the champion is set, so that tick leaves the rune page and the spell
  pair as they were.
- In the application view, `getRandom` on an empty rune slot yields
  `undefined`. The item view's `getRandom` yields `null`. Both are `None` from
  the single `Oracle.GetRandom`.
- Starters, boots and main items are not pairwise disjoint in general. Main
  items are disjoint from both other pools. A starter and a pair of boots can
  coincide when an item carries a starter id and the "Boots" tag
  (`ItemDisplay.StartersAndBootsMayShare`).
- Toggling a lane mode twice restores the previous mode only when that mode
  was `null` or the same mode. From another mode it ends at `null`
  (`LaneSelector.ToggleTwice`).

## Model

| member | source | states |
|---|---|---|
| `Oracle.Pick` | src/App.jsx:61 | indexing a non-empty array with a draw yields one of its elements |
| `Oracle.GetRandom` | src/components/ItemDisplay.jsx:37 | no element exactly for an empty array, otherwise an element of the array |
| `Oracle.DrawDistinct` | src/App.jsx:65-67 | if some draw eventually differs, the retry loop ends with a pool element whose id differs from the avoided one, and it is the first such draw |
| `Oracle.RetryNeedsTwoKeys` | src/App.jsx:67 | the retry loop can only end when the pool holds two elements with different ids |
| `Oracle.TwoKeysAdmitRetry` | src/App.jsx:76 | on a pool with two different ids, whatever the first draw, some draw ends the retry loop |
| `ItemDisplay.RiftOnly` | src/components/ItemDisplay.jsx:69-75 | the Summoner's Rift pool is exactly the mapped items on map 11 and on none of maps 30, 33, 35 |
| `ItemDisplay.Starters` | src/components/ItemDisplay.jsx:78-89 | the starter pool is exactly the Rift items whose id is one of the nine starter ids |
| `ItemDisplay.Boots` | src/components/ItemDisplay.jsx:92-98 | the boots pool is exactly the mapped items tagged "Boots", in store, costing 900 to 1250 inclusive |
| `ItemDisplay.Mains` | src/components/ItemDisplay.jsx:101-103 | the main pool is exactly the Rift items costing at least 2000, not a starter id, not tagged "Boots" |
| `ItemDisplay.PoolsDisjoint` | src/components/ItemDisplay.jsx:89-103 | no main item is a starter or a pair of boots; every starter is a Rift item |
| `ItemDisplay.StartersAndBootsMayShare` | src/components/ItemDisplay.jsx:89-98 | some catalog puts one item in both the starter and the boots pool |
| `ItemDisplay.OnePerGroupIds` | src/components/ItemDisplay.jsx:129-134 | an id is limited exactly when some group with that id has a maximum ownable count that is a number at least 0 |
| `ItemDisplay.DropStep` | src/components/ItemDisplay.jsx:148-158 | a rejected candidate leaves the bookkeeping intact, and a rejection is impossible on a conflict-free pool |
| `ItemDisplay.AcceptStep` | src/components/ItemDisplay.jsx:159-163 | accepting a candidate keeps `usedIds` and `usedGroups` equal to the ids and limited groups of the accepted items, which stay conflict-free |
| `ItemDisplay.PadSlots` | src/components/ItemDisplay.jsx:166-167 | after padding there are six slots, the filled ones come first and hold the accepted items in order |
| `ItemDisplay.CoverStep` | src/components/ItemDisplay.jsx:148-163 | after each attempt, every pool item is still in the working pool or shares an id or a limited group with an accepted item |
| `ItemDisplay.RandomMainItems` | src/components/ItemDisplay.jsx:137-168 | the build it returns is a sampled main build: always six slots with filled slots first; each filled slot is from the pool; no two share an id or a limited group; the first slot is filled when the pool is non-empty; on a conflict-free pool exactly min(6, pool size) slots are filled; on a pool of at most 1000 items either all six slots are filled or every pool item shares an id or a limited group with some filled slot, so no compatible item is left unused |
| `ItemDisplay.EmptyLoadout` | src/components/ItemDisplay.jsx:30-34 | the initial selection has no starter, no boots and six empty main slots |
| `ItemDisplay.Load` | src/components/ItemDisplay.jsx:69-117 | after loading, the Rift pool is exactly the mapped Rift-only items, the starters exactly the Rift items with starter ids, the boots exactly the mapped boots, and the main pool exactly the Rift items passing the main-item filter; no main item is a starter or boots; the groups are kept and nothing is selected |
| `ItemDisplay.RollOnce` | src/components/ItemDisplay.jsx:174-178 | a roll takes its starter from the starters and its boots from the boots pool (each empty only when that pool is); its main build carries every promise of `randomMainItems` on the main pool, so slot 0 is filled whenever the main pool is non-empty |
| `ItemDisplay.RandomizeItemsInstant` | src/components/ItemDisplay.jsx:171-183 | with no Rift items nothing changes; otherwise exactly the selection changes, to a roll with a sampled main build |
| `ItemDisplay.RandomizeItemsRolling` | src/components/ItemDisplay.jsx:185-188 | every tick commits a roll and only the selection changes; with Rift items and at least one tick the standing selection is a roll with a sampled main build |
| `App.RandomSpells` | src/App.jsx:63-69 | fewer than two spells give the empty pair; otherwise two catalog spells with different ids, the first being the first draw |
| `App.DrawEach` | src/App.jsx:79 | one rune per slot, each missing exactly for an empty slot and otherwise drawn from that slot |
| `App.SecondarySlots` | src/App.jsx:80 | `slice(1, 3)` keeps slots 1 and 2 where present, so at most two |
| `App.DrawPage` | src/App.jsx:78-80 | once both trees are chosen, the keystone comes from primary slot 0, minor i from primary slot i+1 for every later slot, and at most two secondary minors from secondary slots 1 and 2 |
| `App.RandomRunes` | src/App.jsx:71-95 | fewer than two trees give no page; a primary tree without slots throws; otherwise two different catalog trees, the keystone from primary slot 0, one minor per later primary slot, at most two secondary minors from secondary slots 1 and 2 |
| `App.Initial` | src/App.jsx:11-14 | the initial state has no champion, no rune page and an empty spell pair, is not rolling, keeps the catalogs and is consistent with them |
| `App.Randomize` | src/App.jsx:97-99 | with any catalog empty nothing changes, the rolling flag included; otherwise only the rolling flag changes, to true |
| `App.Click` | src/App.jsx:130-132 | a click while rolling changes nothing; otherwise the roll starts exactly when the catalogs are loaded |
| `App.Tick` | src/App.jsx:102-106 | a tick commits a catalog champion and keeps committed values consistent with the catalogs; with two or more trees and a primary tree that has slots it commits a well-formed rune page and a valid spell pair; when the rune draw throws it leaves the rune page and spell pair unchanged, and the spell draws are not needed on that path |
| `App.Settle` | src/App.jsx:108-111 | the timeout only lowers the rolling flag |
| `App.RandomizeCycle` | src/App.jsx:97-112 | a cycle on a loaded catalog ends not rolling, with a catalog champion after any tick; unless the last tick's rune draw throws, the standing rune page is well-formed with two or more trees and `null` with one, and either way the spell pair is valid; on an unloaded catalog it changes nothing; consistency with the catalogs is preserved |
| `LaneSelector.ToggleMode` | src/components/LaneSelector.jsx:4-6 | the mode afterwards is either `null` or the toggled mode, and it is `null` exactly when the toggled mode was already set; `ToggleTwice` and `Click` state what repeated toggles and button clicks give |
| `LaneSelector.ToggleTwice` | src/components/LaneSelector.jsx:4-6 | toggling a mode twice restores the previous mode exactly when that was `null` or the same mode, and otherwise gives `null` |
| `LaneSelector.ActiveKey` | src/components/LaneSelector.jsx:25 | every mode has exactly one active key |
| `LaneSelector.OneButtonActive` | src/components/LaneSelector.jsx:15-25 | exactly one of the four buttons is active, and "fill" is active exactly when the mode is `null` (or "fill") |
| `LaneSelector.Click` | src/components/LaneSelector.jsx:30-33 | "fill" resets the mode to `null`; any other button flips its own active state, and un-activating it activates "fill"; no click yields the "fill" mode |
| `LaneSelector.NeverFill` | src/components/LaneSelector.jsx:4-6 | from any mode but "fill", in particular `null`, no click sequence reaches the "fill" mode, and afterwards either the last clicked button or "fill" is active |

## Left out

- Catalog fetching and JSON parsing (ItemDisplay.jsx lines 39-66 and 118-126, App.jsx lines 16-59): network I/O. Catalogs are parameters, already parsed.
- The `Number(...)` conversion of `MaxGroupOwnable` and the `i.group || null` normalisation: parsing. The model takes their results as given.
- Timers: the 150 ms and 100 ms intervals, the random 2 to 3 s duration, and the scheduler. Rolling mode is a sequence of tick draws followed by the timeout, which draws nothing, so the last tick's values stand. The number of ticks is a parameter, so nothing is claimed about how many ticks a duration gives.
- Uniformity of `Math.random`: it is replaced by an injected draw oracle, and no distribution claim is made.
- `Oracle.GetRandom`: does not model a missing (`undefined`) array argument, because every caller passes an array held in state.
- `Oracle.DrawDistinct`, `App.RandomSpells`, `App.RandomRunes`: termination of the retry loops is proved only under the precondition that the oracle eventually yields a different id. Unconditional termination is not claimed, since the source loops forever on a pool whose entries all share one id.
- `App.RandomRunes`: keeps the drawn trees in the page instead of the source's name and icon URL strings.
- `ItemDisplay.RandomizeItemsRolling`: overlapping rolls from repeated clicks are not modelled, because the item view has no rolling guard and those rolls are timer concurrency.
- The debug logging, loading screen, tooltips and all rendering, including SetViewer, RuneDisplay, SpellDisplay, ChampionCard, GenericTooltip and useSmartTooltipPosition: presentation only.
- Cross-selector context passing, such as a smite pick changing the starter pool: this version of the source has no such link.
- `ItemDisplay.RandomMainItems`: the 1000-attempt cut-off is modelled in the loop, but its effect on main pools of more than 1000 items is not stated: the cover property is promised only for pools of at most 1000 items.

=== FILE: app.dfy ===
/** The application view: the summoner-spell pair, the rune page, and the
    rolling randomize cycle over champion, rune page and spells (src/App.jsx). */
module App {
  import opened Base
  import opened Oracle

  datatype Champion = Champion(id: string)
  datatype Spell = Spell(id: string)
  datatype Rune = Rune(id: int)
  datatype Slot = Slot(runes: seq<Rune>)

  /** A rune tree: slot 0 holds the keystones, the later slots the minor runes. */
  datatype RuneTree = RuneTree(id: int, slots: seq<Slot>)

  /** A drawn rune page. A missing rune (`undefined` from an empty slot) is `None`. */
  datatype RunePage = RunePage(
    primary: RuneTree,
    keystone: Option<Rune>,
    minors: seq<Option<Rune>>,
    secondary: RuneTree,
    subs: seq<Option<Rune>>)

  /** What `randomRunes` does: returns `null` (`NoPage`), returns a page, or
      throws a `TypeError` reading `slots[0].runes` of a tree with no slots. */
  datatype RuneRoll = NoPage | Page(page: RunePage) | TypeError

  /** The application state; `runeSet` is `null` until a page is drawn. */
  datatype AppState = AppState(
    champions: seq<Champion>,
    runes: seq<RuneTree>,
    spells: seq<Spell>,
    champion: Option<Champion>,
    runeSet: Option<RunePage>,
    spellPair: seq<Spell>,
    isRolling: bool)

  /** Only the second spell is redrawn, at positions 0, 1, 2, ... of `second`. */
  datatype SpellDraws = SpellDraws(first: nat, second: Stream)

  /** Minor rune `i` of the primary tree uses `minors(i)`, secondary minor `i` uses `subs(i)`. */
  datatype RuneDraws = RuneDraws(primary: nat, secondary: Stream, keystone: nat, minors: Stream, subs: Stream)

  datatype TickDraws = TickDraws(champion: nat, runes: RuneDraws, spells: SpellDraws)

  /** Number of secondary minors: `slots.slice(1, 3).length`. */
  const MaxSubs: nat := 2

  // ---------------------------------------------------------------------------
  // Spells
  // ---------------------------------------------------------------------------

  /** The oracle eventually ends the spell retry loop: some redraw differs from the first by id. */
  ghost predicate SpellRetryEnds(spells: seq<Spell>, d: SpellDraws) {
    |spells| < 2 || exists k: nat :: Pick(spells, d.second(k)).id != Pick(spells, d.first).id
  }

  /** A spell pair as `randomSpells` leaves it: nothing below two spells, else
      two catalog spells with different ids. */
  ghost predicate ValidSpellPair(pair: seq<Spell>, spells: seq<Spell>) {
    && (|spells| < 2 ==> pair == [])
    && (|spells| >= 2 ==> |pair| == 2 && pair[0] in spells && pair[1] in spells && pair[0].id != pair[1].id)
  }

  /** `randomSpells`. */
  method RandomSpells(spells: seq<Spell>, d: SpellDraws) returns (pair: seq<Spell>)
    requires SpellRetryEnds(spells, d)
    ensures ValidSpellPair(pair, spells)
    ensures |spells| >= 2 ==> pair[0] == Pick(spells, d.first)
  {
    if |spells| < 2 {
      return [];
    }
    var first := Pick(spells, d.first);
    var key := (s: Spell) => s.id;
    ghost var w: nat :| Pick(spells, d.second(w)).id != first.id;
    assert key(Pick(spells, d.second(w))) != first.id;
    var second := DrawDistinct(spells, key, first.id, d.second);
    pair := [first, second];
  }

  // ---------------------------------------------------------------------------
  // Runes
  // ---------------------------------------------------------------------------

  /** The oracle eventually ends the rune-tree retry loop. */
  ghost predicate TreeRetryEnds(runes: seq<RuneTree>, d: RuneDraws) {
    |runes| < 2 || exists k: nat :: Pick(runes, d.secondary(k)).id != Pick(runes, d.primary).id
  }

  /** `slots.map((slot) => getRandom(slot.runes))`, slot `i` using `draws(from + i)`. */
  function DrawEach(slots: seq<Slot>, draws: Stream, from: nat): (r: seq<Option<Rune>>)
    ensures |r| == |slots|
    ensures forall i :: 0 <= i < |slots| ==>
      (r[i].None? <==> |slots[i].runes| == 0) && (r[i].Some? ==> r[i].value in slots[i].runes)
    decreases |slots|
  {
    if |slots| == 0 then []
    else [GetRandom(slots[0].runes, draws(from))] + DrawEach(slots[1..], draws, from + 1)
  }

  /** `slots.slice(1, 3)`. */
  function SecondarySlots(slots: seq<Slot>): (r: seq<Slot>)
    ensures |r| == if |slots| <= 1 then 0 else if |slots| <= 1 + MaxSubs then |slots| - 1 else MaxSubs
    ensures forall i :: 0 <= i < |r| ==> r[i] == slots[i + 1]
  {
    if |slots| <= 1 then [] else slots[1..if |slots| < 1 + MaxSubs then |slots| else 1 + MaxSubs]
  }

  /** A rune `None` exactly for an empty slot, otherwise drawn from it. */
  ghost predicate DrawnFrom(r: Option<Rune>, slot: Slot) {
    (r.None? <==> |slot.runes| == 0) && (r.Some? ==> r.value in slot.runes)
  }

  /** The runes of a page are drawn from its trees: the keystone from the
      primary tree's slot 0, minor `i` from primary slot `i + 1` for every later
      slot, and at most two secondary minors, minor `i` from secondary slot `i + 1`. */
  ghost predicate RunesFromTrees(p: RunePage) {
    && |p.primary.slots| > 0
    && DrawnFrom(p.keystone, p.primary.slots[0])
    && |p.minors| == |p.primary.slots| - 1
    && (forall i :: 0 <= i < |p.minors| ==> DrawnFrom(p.minors[i], p.primary.slots[i + 1]))
    && |p.subs| <= MaxSubs
    && |p.subs| == |SecondarySlots(p.secondary.slots)|
    && (forall i :: 0 <= i < |p.subs| ==> DrawnFrom(p.subs[i], p.secondary.slots[i + 1]))
  }

  /** A legal page over `runes`: two catalog trees with different ids, and runes drawn from them. */
  ghost predicate WellFormedPage(p: RunePage, runes: seq<RuneTree>) {
    && p.primary in runes && p.secondary in runes
    && p.primary.id != p.secondary.id
    && RunesFromTrees(p)
  }

  /** The rune draws of `randomRunes` once both trees are chosen. */
  function DrawPage(primary: RuneTree, secondary: RuneTree, d: RuneDraws): (p: RunePage)
    requires |primary.slots| > 0
    ensures p.primary == primary && p.secondary == secondary
    ensures RunesFromTrees(p)
  {
    RunePage(primary,
             GetRandom(primary.slots[0].runes, d.keystone),
             DrawEach(primary.slots[1..], d.minors, 0),
             secondary,
             DrawEach(SecondarySlots(secondary.slots), d.subs, 0))
  }

  /** `randomRunes`. */
  method RandomRunes(runes: seq<RuneTree>, d: RuneDraws) returns (r: RuneRoll)
    requires TreeRetryEnds(runes, d)
    ensures r.NoPage? <==> |runes| < 2
    ensures r.TypeError? <==> |runes| >= 2 && |Pick(runes, d.primary).slots| == 0
    ensures r.Page? ==> WellFormedPage(r.page, runes) && r.page.primary == Pick(runes, d.primary)
  {
    if |runes| < 2 {
      return NoPage;
    }
    var primary := Pick(runes, d.primary);
    var key := (t: RuneTree) => t.id;
    ghost var w: nat :| Pick(runes, d.secondary(w)).id != primary.id;
    assert key(Pick(runes, d.secondary(w))) != primary.id;
    var secondary := DrawDistinct(runes, key, primary.id, d.secondary);
    if |primary.slots| == 0 {
      return TypeError;
    }
    r := Page(DrawPage(primary, secondary, d));
  }

  // ---------------------------------------------------------------------------
  // The randomize cycle
  // ---------------------------------------------------------------------------

  /** `randomize` only starts with every catalog loaded. */
  predicate Ready(st: AppState) {
    |st.champions| > 0 && |st.runes| > 0 && |st.spells| > 0
  }

  /** Every committed value comes from the catalogs. */
  ghost predicate Consistent(st: AppState) {
    && (st.champion.Some? ==> st.champion.value in st.champions)
    && (st.runeSet.Some? ==> WellFormedPage(st.runeSet.value, st.runes))
    && (st.spellPair == [] || ValidSpellPair(st.spellPair, st.spells))
  }

  function Initial(champions: seq<Champion>, runes: seq<RuneTree>, spells: seq<Spell>): (st: AppState)
    ensures Consistent(st) && !st.isRolling
    ensures st.champion.None? && st.runeSet.None? && st.spellPair == []
    ensures st.champions == champions && st.runes == runes && st.spells == spells
  {
    AppState(champions, runes, spells, None, None, [], false)
  }

  /** The start of `randomize`: with a catalog empty nothing changes (the
      rolling flag included); otherwise only the rolling flag changes, to true. */
  function Randomize(st: AppState): (r: AppState)
    ensures !Ready(st) ==> r == st
    ensures Ready(st) ==> r.isRolling && r.(isRolling := st.isRolling) == st
  {
    if !Ready(st) then st else st.(isRolling := true)
  }

  /** The randomize button is disabled while rolling, so a click during a roll
      never starts a second one. */
  function Click(st: AppState): (r: AppState)
    ensures st.isRolling ==> r == st
    ensures !st.isRolling ==> (r.isRolling <==> Ready(st))
    ensures r.(isRolling := st.isRolling) == st
  {
    if st.isRolling then st else Randomize(st)
  }

  /** One 100 ms interval tick: a champion, a rune page and a spell pair. When
      the rune draw throws, the callback stops after the champion. */
  method Tick(st: AppState, d: TickDraws) returns (r: AppState)
    requires |st.champions| > 0
    requires TreeRetryEnds(st.runes, d.runes)
    requires |st.runes| < 2 || |Pick(st.runes, d.runes.primary).slots| > 0 ==> SpellRetryEnds(st.spells, d.spells)
    ensures r.champions == st.champions && r.runes == st.runes && r.spells == st.spells
    ensures r.isRolling == st.isRolling
    ensures r.champion.Some? && r.champion.value in st.champions
    ensures Consistent(st) ==> Consistent(r)
    ensures |st.runes| < 2 ==> r.runeSet.None?
    ensures |st.runes| >= 2 && |Pick(st.runes, d.runes.primary).slots| == 0 ==>
      r.runeSet == st.runeSet && r.spellPair == st.spellPair
    ensures (|st.runes| < 2 || |Pick(st.runes, d.runes.primary).slots| > 0) ==>
      ValidSpellPair(r.spellPair, st.spells)
    ensures |st.runes| >= 2 && |Pick(st.runes, d.runes.primary).slots| > 0 ==>
      r.runeSet.Some? && WellFormedPage(r.runeSet.value, st.runes)
  {
    r := st.(champion := Some(Pick(st.champions, d.champion)));
    var roll := RandomRunes(st.runes, d.runes);
    if roll.TypeError? {
      return;
    }
    r := r.(runeSet := if roll.Page? then Some(roll.page) else None);
    var pair := RandomSpells(st.spells, d.spells);
    r := r.(spellPair := pair);
  }

  /** The timeout: the interval is cleared and the rolling flag drops. */
  function Settle(st: AppState): (r: AppState)
    ensures !r.isRolling && r.(isRolling := st.isRolling) == st
  {
    st.(isRolling := false)
  }

  /** A whole `randomize` cycle with the timers abstracted: the start, the
      interval ticks, then the timeout. */
  method RandomizeCycle(st: AppState, ticks: seq<TickDraws>) returns (r: AppState)
    requires forall t :: t in ticks ==> TreeRetryEnds(st.runes, t.runes)
    requires forall t :: t in ticks && (|st.runes| < 2 || |Pick(st.runes, t.runes.primary).slots| > 0) ==>
      SpellRetryEnds(st.spells, t.spells)
    ensures !Ready(st) ==> r == st
    ensures Ready(st) ==> !r.isRolling
    ensures r.champions == st.champions && r.runes == st.runes && r.spells == st.spells
    ensures Ready(st) && |ticks| == 0 ==> r == st.(isRolling := false)
    ensures Ready(st) && |ticks| > 0 ==> r.champion.Some? && r.champion.value in st.champions
    ensures Ready(st) && |ticks| > 0 && |st.runes| >= 2 && |Pick(st.runes, ticks[|ticks| - 1].runes.primary).slots| > 0 ==>
      && r.runeSet.Some? && WellFormedPage(r.runeSet.value, st.runes)
      && ValidSpellPair(r.spellPair, st.spells)
    ensures Ready(st) && |ticks| > 0 && |st.runes| < 2 ==> r.runeSet.None?
    ensures Ready(st) && |ticks| > 0 && (|st.runes| < 2 || |Pick(st.runes, ticks[|ticks| - 1].runes.primary).slots| > 0) ==>
      ValidSpellPair(r.spellPair, st.spells)
    ensures Consistent(st) ==> Consistent(r)
  {
    if !Ready(st) {
      return st;
    }
    r := Randomize(st);
    var t := 0;
    while t < |ticks|
      invariant 0 <= t <= |ticks|
      invariant r.champions == st.champions && r.runes == st.runes && r.spells == st.spells
      invariant r.isRolling
      invariant t == 0 ==> r == st.(isRolling := true)
      invariant t > 0 ==> r.champion.Some? && r.champion.value in st.champions
      invariant t > 0 && |st.runes| >= 2 && |Pick(st.runes, ticks[t - 1].runes.primary).slots| > 0 ==>
        && r.runeSet.Some? && WellFormedPage(r.runeSet.value, st.runes)
        && ValidSpellPair(r.spellPair, st.spells)
      invariant t > 0 && |st.runes| < 2 ==> r.runeSet.None?
      invariant t > 0 && (|st.runes| < 2 || |Pick(st.runes, ticks[t - 1].runes.primary).slots| > 0) ==>
        ValidSpellPair(r.spellPair, st.spells)
      invariant Consistent(st) ==> Consistent(r)
    {
      assert ticks[t] in ticks;
      r := Tick(r, ticks[t]);
      t := t + 1;
    }
    r := Settle(r);
  }
}

=== FILE: base.dfy ===
/** Small shared vocabulary: an optional value (JavaScript's `null`/`undefined`
    versus a present value), order-preserving filtering, and removal of one
    position from a sequence (`Array.prototype.splice(i, 1)`). */
module Base {

  /** A slot that may be empty: `None` plays the role of `null` or `undefined`. */
  datatype Option<T> = None | Some(value: T)

  /** `Array.prototype.filter`: keeps, in order, the elements satisfying `p`,
      each with its original multiplicity. */
  function Filter<T(!new)>(p: T -> bool, s: seq<T>): (r: seq<T>)
    ensures |r| <= |s|
    ensures forall x :: x in r <==> x in s && p(x)
    ensures forall x :: multiset(r)[x] == if p(x) then multiset(s)[x] else 0
  {
    if |s| == 0 then []
    else
      assert s == [s[0]] + s[1..];
      (if p(s[0]) then [s[0]] else []) + Filter(p, s[1..])
  }

  /** `s.splice(i, 1)`: the sequence without position `i`; every other element
      keeps its relative order. */
  function RemoveAt<T>(s: seq<T>, i: nat): (r: seq<T>)
    requires i < |s|
    ensures |r| == |s| - 1
    ensures forall k :: 0 <= k < |r| ==> r[k] == if k < i then s[k] else s[k + 1]
    ensures multiset(r) + multiset{s[i]} == multiset(s)
    ensures forall x :: x in r ==> x in s
  {
    assert s == s[..i] + [s[i]] + s[i + 1..];
    s[..i] + s[i + 1..]
  }
}

=== FILE: items.dfy ===
/** The item view: candidate pools built from the mapped item catalog, the set
    of "limited" item groups, the 6-slot main-item sampler and the
    randomize-items operation (src/components/ItemDisplay.jsx). */
module ItemDisplay {
  import opened Base
  import opened Oracle

  /** One catalog item after mapping: `gold` is `gold.total`, `maps` the
      per-map availability flags, `groupId` the item's group (`i.group || null`). */
  datatype Item = Item(
    id: string,
    gold: int,
    tags: seq<string>,
    maps: map<string, bool>,
    groupId: Option<string>,
    inStore: bool)

  /** The value `Number(g.MaxGroupOwnable)` yields. */
  datatype JsNumber = NaN | Finite(value: real) | PosInfinity | NegInfinity

  /** One entry of the catalog's group list. */
  datatype Group = Group(id: string, maxGroupOwnable: JsNumber)

  /** What the view commits: a starter, a pair of boots and six main slots. */
  datatype Loadout = Loadout(start: Option<Item>, boots: Option<Item>, main: seq<Option<Item>>)

  /** The view's state once the catalog is loaded. */
  datatype ItemState = ItemState(
    allItems: seq<Item>,
    groups: seq<Group>,
    starterItems: seq<Item>,
    bootsItems: seq<Item>,
    mainItemsPool: seq<Item>,
    selected: Loadout)

  const MainSlots: nat := 6
  const MaxAttempts: nat := 1000
  const MinMainGold: int := 2000
  const MinBootsGold: int := 900
  const MaxBootsGold: int := 1250

  /** Starting items, by stable id. */
  const StarterIds: seq<string> := ["1054", "1055", "1056", "1082", "3070", "2033", "2031", "1039", "1036"]

  // ---------------------------------------------------------------------------
  // Pools
  // ---------------------------------------------------------------------------

  /** `Boolean(it.maps && it.maps[m])`. */
  predicate OnMap(it: Item, m: string) {
    m in it.maps && it.maps[m]
  }

  /** Summoner's Rift (map 11) and none of ARAM/Arena/TFT (maps 30, 33, 35). */
  predicate IsRiftOnly(it: Item) {
    OnMap(it, "11") && !OnMap(it, "30") && !OnMap(it, "33") && !OnMap(it, "35")
  }

  predicate IsStarter(it: Item) {
    it.id in StarterIds
  }

  predicate IsBoots(it: Item) {
    "Boots" in it.tags && it.inStore && MinBootsGold <= it.gold <= MaxBootsGold
  }

  predicate IsMain(it: Item) {
    it.gold >= MinMainGold && it.id !in StarterIds && "Boots" !in it.tags
  }

  function RiftOnly(mapped: seq<Item>): (r: seq<Item>)
    ensures forall it :: it in r <==>
      it in mapped && OnMap(it, "11") && !OnMap(it, "30") && !OnMap(it, "33") && !OnMap(it, "35")
  {
    Filter(IsRiftOnly, mapped)
  }

  function Starters(riftOnly: seq<Item>): (r: seq<Item>)
    ensures forall it :: it in r <==> it in riftOnly && it.id in StarterIds
  {
    Filter(IsStarter, riftOnly)
  }

  /** Boots are drawn from every mapped item, not only the Summoner's Rift ones. */
  function Boots(mapped: seq<Item>): (r: seq<Item>)
    ensures forall it :: it in r <==>
      it in mapped && "Boots" in it.tags && it.inStore && 900 <= it.gold <= 1250
  {
    Filter(IsBoots, mapped)
  }

  function Mains(riftOnly: seq<Item>): (r: seq<Item>)
    ensures forall it :: it in r <==>
      it in riftOnly && it.gold >= 2000 && it.id !in StarterIds && "Boots" !in it.tags
  {
    Filter(IsMain, riftOnly)
  }

  /** No main item is a starter or a pair of boots. */
  lemma PoolsDisjoint(mapped: seq<Item>)
    ensures forall it :: it in Mains(RiftOnly(mapped)) ==> it !in Starters(RiftOnly(mapped))
    ensures forall it :: it in Mains(RiftOnly(mapped)) ==> it !in Boots(mapped)
    ensures forall it :: it in Starters(RiftOnly(mapped)) ==> it in RiftOnly(mapped)
  {
  }

  /** Starters and boots, on the other hand, are not disjoint by construction:
      an item carrying a starter id and the "Boots" tag lands in both. */
  lemma StartersAndBootsMayShare()
    ensures exists mapped: seq<Item>, it: Item ::
      it in Starters(RiftOnly(mapped)) && it in Boots(mapped)
  {
    var it := Item("1054", 1000, ["Boots"], map["11" := true], None, true);
    assert IsRiftOnly(it) && IsStarter(it) && IsBoots(it);
    assert it in Starters(RiftOnly([it]));
  }

  // ---------------------------------------------------------------------------
  // Limited groups
  // ---------------------------------------------------------------------------

  /** `!Number.isNaN(mg) && mg >= 0`. */
  predicate IsLimited(g: Group) {
    match g.maxGroupOwnable
    case NaN => false
    case Finite(v) => v >= 0.0
    case PosInfinity => true
    case NegInfinity => false
  }

  /** `onePerGroupIds`: the ids of the groups whose maximum ownable count is a
      number at least zero, in catalog order. */
  function OnePerGroupIds(groups: seq<Group>): (r: seq<string>)
    ensures |r| <= |groups|
    ensures forall id :: id in r <==> exists g :: g in groups && IsLimited(g) && g.id == id
  {
    if |groups| == 0 then []
    else
      assert forall g :: g in groups <==> g == groups[0] || g in groups[1..];
      (if IsLimited(groups[0]) then [groups[0].id] else []) + OnePerGroupIds(groups[1..])
  }

  // ---------------------------------------------------------------------------
  // The 6-slot main-item sampler
  // ---------------------------------------------------------------------------

  /** `group && onePerGroupIds.includes(group)`. */
  predicate LimitedGroup(group: Option<string>, limited: seq<string>) {
    group.Some? && group.value != "" && group.value in limited
  }

  /** Two items may sit in one build: different ids, and not the same limited group. */
  predicate Compatible(a: Item, b: Item, limited: seq<string>) {
    a.id != b.id && !(LimitedGroup(a.groupId, limited) && a.groupId == b.groupId)
  }

  ghost predicate ConflictFree(s: seq<Item>, limited: seq<string>) {
    forall i, j :: 0 <= i < j < |s| ==> Compatible(s[i], s[j], limited)
  }

  /** A legal main build drawn from `pool`: six slots, filled slots first, every
      filled slot from the pool, no two filled slots sharing an id or a limited group. */
  ghost predicate ValidMain(slots: seq<Option<Item>>, pool: seq<Item>, limited: seq<string>) {
    && |slots| == MainSlots
    && (forall i, j :: 0 <= i < j < |slots| && slots[i].None? ==> slots[j].None?)
    && (forall i :: 0 <= i < |slots| && slots[i].Some? ==> slots[i].value in pool)
    && (forall i, j :: 0 <= i < j < |slots| && slots[i].Some? && slots[j].Some? ==>
          Compatible(slots[i].value, slots[j].value, limited))
  }

  ghost function IdsOf(s: seq<Item>): (ids: set<string>) {
    set x | x in s :: x.id
  }

  ghost function LimitedGroupsOf(s: seq<Item>, limited: seq<string>): (groups: set<string>) {
    set x | x in s && LimitedGroup(x.groupId, limited) :: x.groupId.value
  }

  /** The final padding: the accepted items in order, then `null` pushed
      until there are six slots. */
  method PadSlots(selected: seq<Item>) returns (slots: seq<Option<Item>>)
    requires |selected| <= MainSlots
    ensures |slots| == MainSlots
    ensures forall i :: 0 <= i < MainSlots ==> (slots[i].Some? <==> i < |selected|)
    ensures forall i :: 0 <= i < |selected| ==> slots[i] == Some(selected[i])
  {
    slots := [];
    while |slots| < |selected|
      invariant |slots| <= |selected|
      invariant forall i :: 0 <= i < |slots| ==> slots[i] == Some(selected[i])
    {
      slots := slots + [Some(selected[|slots|])];
    }
    while |slots| < MainSlots
      invariant |selected| <= |slots| <= MainSlots
      invariant forall i :: 0 <= i < |selected| ==> slots[i] == Some(selected[i])
      invariant forall i :: |selected| <= i < |slots| ==> slots[i].None?
      decreases MainSlots - |slots|
    {
      slots := slots + [None];
    }
  }

  /** What the sampler's bookkeeping keeps true: the working pool and the
      accepted items come from the pool, `usedIds` and `usedGroups` are exactly
      the ids and limited groups of the accepted items, which are conflict-free. */
  ghost predicate Tracks(pool: seq<Item>, limited: seq<string>, work: seq<Item>, selected: seq<Item>,
                         usedIds: set<string>, usedGroups: set<string>)
  {
    && |selected| <= MainSlots
    && (forall x :: x in work ==> x in pool)
    && (forall x :: x in selected ==> x in pool)
    && usedIds == IdsOf(selected)
    && usedGroups == LimitedGroupsOf(selected, limited)
    && ConflictFree(selected, limited)
  }

  /** On a conflict-free pool nothing is ever rejected: every working item is
      compatible with every accepted one, and no item has been thrown away. */
  ghost predicate NoRejection(pool: seq<Item>, limited: seq<string>, work: seq<Item>, selected: seq<Item>) {
    ConflictFree(pool, limited) ==>
      && |selected| + |work| == |pool|
      && ConflictFree(work, limited)
      && forall x, y :: x in work && y in selected ==> Compatible(x, y, limited)
  }

  /** A dropped candidate leaves the bookkeeping intact; on a conflict-free
      pool a drop cannot happen at all. */
  lemma DropStep(pool: seq<Item>, limited: seq<string>, work: seq<Item>, selected: seq<Item>,
                 usedIds: set<string>, usedGroups: set<string>, idx: nat)
    requires idx < |work|
    requires Tracks(pool, limited, work, selected, usedIds, usedGroups)
    requires NoRejection(pool, limited, work, selected)
    requires work[idx].id in usedIds ||
             (LimitedGroup(work[idx].groupId, limited) && work[idx].groupId.value in usedGroups)
    ensures Tracks(pool, limited, RemoveAt(work, idx), selected, usedIds, usedGroups)
    ensures !ConflictFree(pool, limited)
  {
    var c := work[idx];
    assert c in work;
    if c.id in usedIds {
      var y :| y in selected && y.id == c.id;
      assert !Compatible(c, y, limited);
    } else {
      var y :| y in selected && LimitedGroup(y.groupId, limited) && y.groupId.value == c.groupId.value;
      assert !Compatible(c, y, limited);
    }
  }

  /** An accepted candidate extends the accepted items and the bookkeeping together. */
  lemma AcceptStep(pool: seq<Item>, limited: seq<string>, work: seq<Item>, selected: seq<Item>,
                   usedIds: set<string>, usedGroups: set<string>, idx: nat)
    requires idx < |work| && |selected| < MainSlots
    requires Tracks(pool, limited, work, selected, usedIds, usedGroups)
    requires NoRejection(pool, limited, work, selected)
    requires work[idx].id !in usedIds
    requires !(LimitedGroup(work[idx].groupId, limited) && work[idx].groupId.value in usedGroups)
    ensures var c := work[idx];
      Tracks(pool, limited, RemoveAt(work, idx), selected + [c], usedIds + {c.id},
             if LimitedGroup(c.groupId, limited) then usedGroups + {c.groupId.value} else usedGroups)
    ensures NoRejection(pool, limited, RemoveAt(work, idx), selected + [work[idx]])
  {
  }

  /** Every pool item is either still in the working pool or clashes with an
      accepted item (an accepted item clashes with itself). */
  ghost predicate Covered(pool: seq<Item>, limited: seq<string>, work: seq<Item>, selected: seq<Item>) {
    forall x :: x in pool ==> x in work || exists y :: y in selected && !Compatible(x, y, limited)
  }

  /** Removing the drawn item keeps every pool item accounted for, provided
      the removed item clashes with an accepted one and no accepted item is lost. */
  lemma CoverStep(pool: seq<Item>, limited: seq<string>, work: seq<Item>, selected: seq<Item>,
                  selected': seq<Item>, idx: nat)
    requires idx < |work|
    requires Covered(pool, limited, work, selected)
    requires forall y :: y in selected ==> y in selected'
    requires exists y :: y in selected' && !Compatible(work[idx], y, limited)
    ensures Covered(pool, limited, RemoveAt(work, idx), selected')
  {
  }

  /** What the sampler promises about a main build: it is legal, its first
      slot is filled when the pool is non-empty, a conflict-free pool fills
      exactly min(6, pool size) slots, and on a pool the attempt bound cannot
      cut short the build is full or every pool item clashes with a chosen one. */
  ghost predicate SampledMain(slots: seq<Option<Item>>, pool: seq<Item>, limited: seq<string>) {
    && ValidMain(slots, pool, limited)
    && (|pool| > 0 ==> slots[0].Some?)
    && (ConflictFree(pool, limited) ==>
          forall i :: 0 <= i < MainSlots ==> (slots[i].Some? <==> i < |pool|))
    && (|pool| <= MaxAttempts ==>
          || (forall i :: 0 <= i < MainSlots ==> slots[i].Some?)
          || (forall x :: x in pool ==>
                exists i :: 0 <= i < MainSlots && slots[i].Some? && !Compatible(x, slots[i].value, limited)))
  }

  /** `randomMainItems`: rejection sampling without replacement. Attempt `k`
      draws index `draws(k) % |work|` from the working copy of the pool; the
      candidate is dropped if its id or its limited group is already taken,
      otherwise accepted; either way it leaves the working pool. At most 1000
      attempts, at most six accepted items, then padding with empty slots. */
  method RandomMainItems(pool: seq<Item>, limited: seq<string>, draws: Stream) returns (slots: seq<Option<Item>>)
    ensures SampledMain(slots, pool, limited)
  {
    var work := pool;
    var selected: seq<Item> := [];
    var usedGroups: set<string> := {};
    var usedIds: set<string> := {};
    var attempts: nat := 0;
    while attempts < MaxAttempts && |selected| < MainSlots && |work| > 0
      invariant Tracks(pool, limited, work, selected, usedIds, usedGroups)
      invariant NoRejection(pool, limited, work, selected)
      invariant ConflictFree(pool, limited) ==> attempts == |selected|
      invariant attempts == 0 ==> work == pool && selected == []
      invariant attempts > 0 ==> |selected| > 0
      invariant attempts + |work| == |pool|
      invariant Covered(pool, limited, work, selected)
      decreases |work|
    {
      var idx := draws(attempts) % |work|;
      var candidate := work[idx];
      var group := candidate.groupId;
      var limitedGroup := LimitedGroup(group, limited);
      if candidate.id in usedIds {
        DropStep(pool, limited, work, selected, usedIds, usedGroups, idx);
        var y :| y in selected && y.id == candidate.id;
        assert !Compatible(candidate, y, limited);
        CoverStep(pool, limited, work, selected, selected, idx);
        work := RemoveAt(work, idx);
      } else if limitedGroup && group.value in usedGroups {
        DropStep(pool, limited, work, selected, usedIds, usedGroups, idx);
        var y :| y in selected && LimitedGroup(y.groupId, limited) && y.groupId.value == group.value;
        assert !Compatible(candidate, y, limited);
        CoverStep(pool, limited, work, selected, selected, idx);
        work := RemoveAt(work, idx);
      } else {
        AcceptStep(pool, limited, work, selected, usedIds, usedGroups, idx);
        assert candidate in selected + [candidate] && !Compatible(candidate, candidate, limited);
        CoverStep(pool, limited, work, selected, selected + [candidate], idx);
        selected := selected + [candidate];
        usedIds := usedIds + {candidate.id};
        if limitedGroup {
          usedGroups := usedGroups + {group.value};
        }
        work := RemoveAt(work, idx);
      }
      attempts := attempts + 1;
    }
    slots := PadSlots(selected);
    if |pool| <= MaxAttempts && |selected| < MainSlots {
      forall x | x in pool
        ensures exists i :: 0 <= i < MainSlots && slots[i].Some? && !Compatible(x, slots[i].value, limited)
      {
        var y :| y in selected && !Compatible(x, y, limited);
        var k :| 0 <= k < |selected| && selected[k] == y;
        assert slots[k].Some? && slots[k].value == y;
      }
    }
  }

  // ---------------------------------------------------------------------------
  // Loading and randomizing
  // ---------------------------------------------------------------------------

  function EmptyLoadout(): (l: Loadout)
    ensures l.start.None? && l.boots.None? && |l.main| == MainSlots
    ensures forall i :: 0 <= i < |l.main| ==> l.main[i].None?
  {
    Loadout(None, None, seq(MainSlots, _ => None))
  }

  /** The pure part of a successful catalog load: the Summoner's Rift items
      become `allItems` and the three pools are derived from them (boots from
      every mapped item); nothing is selected yet. */
  function Load(mapped: seq<Item>, groups: seq<Group>): (st: ItemState)
    ensures forall it :: it in st.allItems <==> it in mapped && IsRiftOnly(it)
    ensures forall it :: it in st.starterItems <==> it in st.allItems && IsStarter(it)
    ensures forall it :: it in st.bootsItems <==> it in mapped && IsBoots(it)
    ensures forall it :: it in st.mainItemsPool <==> it in st.allItems && IsMain(it)
    ensures forall it :: it in st.mainItemsPool ==> it !in st.starterItems && it !in st.bootsItems
    ensures st.groups == groups && st.selected == EmptyLoadout()
  {
    var riftOnly := RiftOnly(mapped);
    ItemState(riftOnly, groups, Starters(riftOnly), Boots(mapped), Mains(riftOnly), EmptyLoadout())
  }

  /** The draws one `rollOnce` consumes. */
  datatype RollDraws = RollDraws(start: nat, boots: nat, main: Stream)

  ghost predicate ValidLoadout(st: ItemState, l: Loadout) {
    && (l.start.None? <==> |st.starterItems| == 0)
    && (l.start.Some? ==> l.start.value in st.starterItems)
    && (l.boots.None? <==> |st.bootsItems| == 0)
    && (l.boots.Some? ==> l.boots.value in st.bootsItems)
    && SampledMain(l.main, st.mainItemsPool, OnePerGroupIds(st.groups))
  }

  /** `rollOnce`: a starter, a pair of boots and a main build, each from its pool. */
  method RollOnce(st: ItemState, d: RollDraws) returns (l: Loadout)
    ensures ValidLoadout(st, l)
  {
    var main := RandomMainItems(st.mainItemsPool, OnePerGroupIds(st.groups), d.main);
    l := Loadout(GetRandom(st.starterItems, d.start), GetRandom(st.bootsItems, d.boots), main);
  }

  /** `randomizeItems(true)`: nothing happens without Summoner's Rift items;
      otherwise exactly one roll is committed and the pools stay as they are. */
  method RandomizeItemsInstant(st: ItemState, d: RollDraws) returns (r: ItemState)
    ensures |st.allItems| == 0 ==> r == st
    ensures r.(selected := st.selected) == st
    ensures |st.allItems| > 0 ==> ValidLoadout(st, r.selected)
  {
    if |st.allItems| == 0 {
      return st;
    }
    var l := RollOnce(st, d);
    r := st.(selected := l);
  }

  /** `randomizeItems(false)` with the timers abstracted: every interval tick
      commits a fresh roll and only the selection changes; after at least one
      tick the standing selection is a legal roll. */
  method RandomizeItemsRolling(st: ItemState, ticks: seq<RollDraws>) returns (r: ItemState)
    ensures |st.allItems| == 0 || |ticks| == 0 ==> r == st
    ensures r.(selected := st.selected) == st
    ensures |st.allItems| > 0 && |ticks| > 0 ==> ValidLoadout(st, r.selected)
  {
    if |st.allItems| == 0 {
      return st;
    }
    r := st;
    var t := 0;
    while t < |ticks|
      invariant 0 <= t <= |ticks|
      invariant r.(selected := st.selected) == st
      invariant t == 0 ==> r == st
      invariant t > 0 ==> ValidLoadout(st, r.selected)
    {
      var l := RollOnce(st, ticks[t]);
      r := r.(selected := l);
      t := t + 1;
    }
  }
}

=== FILE: lane.dfy ===
/** The lane-mode selector: four buttons ("fill", "lane", "jungle", "support")
    over a mode that is `null` or one of the button keys
    (src/components/LaneSelector.jsx). */
module LaneSelector {
  import opened Base

  datatype Key = Fill | Lane | Jungle | Support

  /** The mode: `None` is `null`. `Some(Fill)` is representable because the
      parent owns the mode, but no click produces it. */
  type Mode = Option<Key>

  /** The buttons in display order. */
  const Buttons: seq<Key> := [Fill, Lane, Jungle, Support]

  /** `toggleMode`: clear the mode if it already is `m`, otherwise set it to `m`. */
  function ToggleMode(prev: Mode, m: Key): (r: Mode)
    ensures r == None || r == Some(m)
    ensures r == None <==> prev == Some(m)
  {
    if prev == Some(m) then None else Some(m)
  }

  /** Toggling `m` twice restores the mode exactly when it was `null` or `m`
      to begin with; from any other mode it ends at `null`. */
  lemma ToggleTwice(prev: Mode, m: Key)
    ensures ToggleMode(ToggleMode(prev, m), m) == prev <==> prev == None || prev == Some(m)
    ensures ToggleMode(ToggleMode(prev, m), m) != prev ==> ToggleMode(ToggleMode(prev, m), m) == None
  {
  }

  /** `isActive`: the button of the current mode, and "fill" while the mode is `null`. */
  predicate IsActive(mode: Mode, key: Key) {
    mode == Some(key) || (key == Fill && mode == None)
  }

  /** The one active button for a mode. */
  function ActiveKey(mode: Mode): (k: Key)
    ensures IsActive(mode, k)
    ensures forall k' :: IsActive(mode, k') ==> k' == k
  {
    match mode
    case None => Fill
    case Some(key) => key
  }

  /** Of the four buttons, exactly one is shown active, and it is "fill"
      exactly when the mode is `null` (or the unreachable "fill" mode). */
  lemma OneButtonActive(mode: Mode)
    ensures exists i :: 0 <= i < |Buttons| && IsActive(mode, Buttons[i])
    ensures forall i, j ::
      0 <= i < |Buttons| && 0 <= j < |Buttons| && IsActive(mode, Buttons[i]) && IsActive(mode, Buttons[j])
      ==> i == j
    ensures IsActive(mode, Fill) <==> mode == None || mode == Some(Fill)
  {
    var k := ActiveKey(mode);
    var i := match k case Fill => 0 case Lane => 1 case Jungle => 2 case Support => 3;
    assert Buttons[i] == k;
  }

  /** A button click: "fill" resets the mode, any other button toggles its own mode. */
  function Click(mode: Mode, key: Key): (r: Mode)
    ensures key == Fill ==> r == None
    ensures key != Fill ==> (IsActive(r, key) <==> !IsActive(mode, key))
    ensures key != Fill && !IsActive(r, key) ==> IsActive(r, Fill)
    ensures r != Some(Fill)
  {
    if key == Fill then None else ToggleMode(mode, key)
  }

  /** The mode after a sequence of clicks, first click first. */
  function Clicks(mode: Mode, keys: seq<Key>): (r: Mode)
    decreases |keys|
  {
    if |keys| == 0 then mode else Clicks(Click(mode, keys[0]), keys[1..])
  }

  /** Starting from any mode other than "fill" (in particular from `null`), no
      sequence of clicks ever reaches the "fill" mode, and exactly the last
      clicked button, or "fill", is active afterwards. */
  lemma {:induction false} NeverFill(mode: Mode, keys: seq<Key>)
    requires mode != Some(Fill)
    ensures Clicks(mode, keys) != Some(Fill)
    ensures |keys| > 0 ==> IsActive(Clicks(mode, keys), keys[|keys| - 1]) || IsActive(Clicks(mode, keys), Fill)
    decreases |keys|
  {
    if |keys| > 0 {
      NeverFill(Click(mode, keys[0]), keys[1..]);
      if |keys| > 1 {
        assert keys[1..][|keys[1..]| - 1] == keys[|keys| - 1];
      }
    }
  }
}

=== FILE: oracle.dfy ===
/** The random source. `Math.floor(Math.random() * n)` is replaced by an
    injected draw `d`, reduced to an index as `d % n`; a sequence of draws is a
    `Stream`, position `k` being the `k`-th draw. Nothing here claims anything
    about uniformity. */
module Oracle {
  import opened Base

  /** An unbounded sequence of draws: the `k`-th call to the random source yields `s(k)`. */
  type Stream = nat -> nat

  /** Indexing with a draw, as `arr[Math.floor(Math.random() * arr.length)]`
      does on a non-empty array. */
  function Pick<T>(pool: seq<T>, draw: nat): (r: T)
    requires |pool| > 0
    ensures r in pool
  {
    pool[draw % |pool|]
  }

  /** `getRandom`: no element for an empty array (`null` in the item view,
      `undefined` in the application view), otherwise an element of it. */
  function GetRandom<T>(pool: seq<T>, draw: nat): (r: Option<T>)
    ensures r.None? <==> |pool| == 0
    ensures r.Some? ==> r.value in pool
  {
    if |pool| == 0 then None else Some(Pick(pool, draw))
  }

  /** The retry loop `while (second.id === first.id) second = getRandom(pool)`:
      draws from `stream` at positions 0, 1, 2, ... and returns the first
      element whose key differs from `avoid`.  The loop in the source ends only
      if some draw eventually differs; that is the precondition here. */
  method DrawDistinct<T, K(==)>(pool: seq<T>, key: T -> K, avoid: K, stream: Stream) returns (r: T)
    requires |pool| > 0
    requires exists k: nat :: key(Pick(pool, stream(k))) != avoid
    ensures r in pool && key(r) != avoid
    ensures exists k: nat :: r == Pick(pool, stream(k))
                          && forall j :: 0 <= j < k ==> key(Pick(pool, stream(j))) == avoid
  {
    ghost var w: nat :| key(Pick(pool, stream(w))) != avoid;
    var k: nat := 0;
    r := Pick(pool, stream(0));
    while key(r) == avoid
      invariant k <= w
      invariant r == Pick(pool, stream(k))
      invariant forall j :: 0 <= j < k ==> key(Pick(pool, stream(j))) == avoid
      decreases w - k
    {
      k := k + 1;
      r := Pick(pool, stream(k));
    }
  }

  /** A pool admits a distinct pair only if two of its elements have different keys. */
  ghost predicate HasTwoKeys<T, K>(pool: seq<T>, key: T -> K) {
    exists i, j :: 0 <= i < |pool| && 0 <= j < |pool| && key(pool[i]) != key(pool[j])
  }

  /** The retry loop can end only on a pool holding two different keys ... */
  lemma {:induction false} RetryNeedsTwoKeys<T, K>(pool: seq<T>, key: T -> K, first: nat, stream: Stream)
    requires |pool| > 0
    requires exists k: nat :: key(Pick(pool, stream(k))) != key(Pick(pool, first))
    ensures HasTwoKeys(pool, key)
  {
  }

  /** A draw below the pool's length picks that very position. */
  lemma PickBelowLength<T>(pool: seq<T>, d: nat)
    requires d < |pool|
    ensures Pick(pool, d) == pool[d]
  {
  }

  /** ... and on such a pool, whatever the first draw, some draw ends it. */
  lemma {:induction false} TwoKeysAdmitRetry<T, K>(pool: seq<T>, key: T -> K, first: nat)
    requires HasTwoKeys(pool, key)
    ensures |pool| > 0
    ensures exists d: nat :: key(Pick(pool, d)) != key(Pick(pool, first))
  {
    var i: nat, j: nat :| i < |pool| && j < |pool| && key(pool[i]) != key(pool[j]);
    var f := key(Pick(pool, first));
    var d: nat := if key(pool[i]) != f then i else j;
    PickBelowLength(pool, d);
    assert key(Pick(pool, d)) != f;
  }
}
